=== FILE: README.md ===
# Selector race coordinator of `lib/operation.js`

This project models the *selector* behind `select` in the channel library
`lib/operation.js`. It is a small, single-threaded coordinator that races
several asynchronous sources and commits to the first one that calls back.
The sources are port receives (`take`), port sends (`put`), promises (`await`,
`task`), callback-style tasks (`thunk`), one-shot events (`once`) and timers
(`timeout`). On the first callback the selector runs `cleanup`: it marks
itself done, runs the cancel thunk of every pending registration in the order
they were pushed, and drops its cancel list and port set. It then settles the
enclosing operation from the winning payload. `take`, `put`, `once` and
`timeout` always dispatch through `execute`: a generator-function handler is
handed to the coroutine engine, a plain function's return value resolves the
operation (an exception it throws rejects it), and any other handler resolves
with the payload itself. `await` goes through `execute` only with a truthy
handler; without one, a fulfilled promise resolves with its value and a
rejected one rejects with its error directly. `thunk` goes through `execute`
only with a function handler; otherwise the task's `(err, data)` pair rejects
with `err` when it is truthy and resolves with `data` when it is not.

The model is functional. A `Selector` value holds `done`, the pending cancel
thunks, the port set, the registrations made so far and a trace of
observable effects:
- a wait started;
- a cancel thunk ran;
- a plain handler was called;
- resolve, reject, or `run` was called.

Every registration method and every completion callback is a pure step
function. External sources are signals: "registration k calls back with this
payload". User functions are an oracle parameter (`Behaviour`) that says
whether a call of function `fn` with given arguments returns or throws.
`LinkList.remove`, `event.removeListener` and `coroutine.run` appear only as
logged effects.

Modules, one per file:
- `Values` (`values.dfy`): the JavaScript values in play and their truthiness.
- `Dispatch` (`dispatch.dfy`): handlers, effects, `execute`, the promise
  callbacks of `await`, the `(err, data)` mapping of the `thunk` adapter, and
  the completion callback of `Selector.thunk`.
- `Selectors` (`selector.dfy`): the state, `cleanup`, the seven registration
  methods and their callbacks.
- `SelectorProperties` (`selector_props.dfy`): the shape the state keeps,
  the duplicate-port guard, cancel ordering, and synchronous completion.
- `Setup` (`setup.dfy`): `select(fn)`, with the caller's setup function as a
  list of statements, chained calls and synchronous `throw` included.
- `Race` (`race.dfy`): the sources as a set of *armed* registrations (those
  that can still call back), the race invariant, and the at-most-once
  settlement theorem.

Three behaviours of the code are stated as they are, not smoothed over:
- The `await` and `timeout` callbacks ignore a firing once the selector is
  done (`Race.LateGuardedCallbackIsInert`).
- The `take`, `put` and `once` callbacks do not test `_done`. Exactly-once
  settlement for them rests on their cancel thunk having removed the wait.
  `Selectors.Fire` states that such a callback, fired late, settles a second
  time, and `Race.LateTakeWouldSettleAgain` exhibits it.
- A `thunk` registration is neither cancelled nor guarded. A task that calls
  back after another source won settles the operation a second time and, with
  a handler, calls that handler after settlement
  (`Race.LateTaskCallbackSettlesTwice`). The at-most-once theorem
  `Race.SettlesAtMostOnce` therefore assumes that no task calls back late.
  `Race.TaskFreeRunIsHonest` shows that this assumption always holds when no
  `thunk` is registered.

Four behaviours of the code that its API does not make obvious:
- With a function handler, `Selector.thunk` does not settle with the
  handler's result. It calls `handler(err, data)` inside a wrapper that
  returns nothing, so it resolves with `undefined`, and rejects only if the
  handler throws. A generator-function handler is only instantiated, never
  run.
- `await` tests its handlers for truthiness (`if (res)`). `execute` tests for
  `typeof fn === 'function'`. So a truthy handler that is not a function
  turns a promise rejection into a resolution with the error
  (`Dispatch.OnRejected`).
- The timeout handler is called as `fn(undefined)`, with one `undefined`
  argument.
- A registration method called on a done selector returns `undefined`, not
  the selector. A chained call after a synchronous settlement during setup
  therefore throws a `TypeError` out of `select`, even though the operation
  has already settled (`Setup.ChainAfterSynchronousSettlementThrows`).

## Model

| member | source | states |
|---|---|---|
| Dispatch.ThunkOutcome | lib/operation.js:45-51 | the `(err, data)` callback rejects exactly when `err` is truthy, and then with `err`; otherwise it resolves with `data` |
| Dispatch.TryResolve | lib/operation.js:159-163 | calling a plain handler resolves with its return value exactly when it returns, and otherwise rejects with the exception it threw |
| Dispatch.Execute | lib/operation.js:154-168 | exactly one settling effect, and it comes last; a non-function handler resolves with the payload; a plain function is called with the payload, and its return value resolves or its exception rejects; a generator function is handed to `run` with the payload |
| Dispatch.OnFulfilled | lib/operation.js:239-248 | a promise success settles exactly once; without a function handler it resolves with the value; with a function handler it is `execute` of that handler on the value |
| Dispatch.OnRejected | lib/operation.js:249-258 | a promise failure settles exactly once: with a falsy handler it rejects with the error; with a truthy non-function handler it resolves with the error; with a function handler it goes through `execute` |
| Dispatch.OnThunkDone | lib/operation.js:278-287 | exactly one settling effect; without a function handler it is the adapter's `(err, data)` mapping; with a plain handler, that handler is called with `(err, data)`, its return value is discarded (the resolution is `undefined`), and it rejects exactly when the handler throws, with the thrown error; a generator handler resolves with `undefined` |
| Selectors.Cleanup | lib/operation.js:144-152 | afterwards the selector is done and the registrations are unchanged; on a done selector nothing changes; otherwise the cancel list and port set become empty, and the trace gains exactly one `Cancelled` effect per pending cancel thunk, in push order; the settlement count is unchanged |
| Selectors.RunCleanup | lib/operation.js:144-152 | the `forEach` loop over the cancel thunks produces the same state as `Cleanup` |
| Selectors.OnData | lib/operation.js:193-196 | the `take`/`put`/`once` callback leaves the selector done; its effects are the pending cancel thunks in push order (none if it was already done) followed by `execute` of the registration's own handler on the delivered data, so exactly one settlement is added either way |
| Selectors.OnThunk | lib/operation.js:278-287 | the `thunk` callback leaves the selector done; its effects are the pending cancel thunks (none if already done) followed by the `thunk` completion of the registration's handler on `(err, data)`, adding exactly one settlement either way |
| Selectors.OnSettled | lib/operation.js:239-259 | a promise callback on a done selector changes nothing; on a running one the pending cancel thunks run, the cancel list and port set are emptied, and then the success or failure handler of that registration settles it exactly once |
| Selectors.OnElapsed | lib/operation.js:314-318 | a timer firing on a done selector changes nothing; on a running one the pending cancel thunks run and then `execute` of the registration's handler with `undefined` settles it exactly once |
| Selectors.Reaction | lib/operation.js:193-318 | whichever source calls back, the handlers its registration names turn the payload into exactly one settlement |
| Selectors.Fire | lib/operation.js:193-318 | a callback on a running selector runs the pending cancel thunks and then the firing registration's handlers on the signal's payload, settling exactly once; once done, an `await` or `timeout` callback changes nothing, while a `take`, `put`, `once` or `thunk` callback dispatches its handlers again and settles again |
| Selectors.ReceiveEnd | lib/operation.js:185 | `take` waits on a channel's `output` port when it has one, and on the value itself otherwise |
| Selectors.SendEnd | lib/operation.js:212 | `put` offers to a channel's `input` port when it has one, and on the value itself otherwise |
| Selectors.AttachPort | lib/operation.js:185-204 | a port already in the set throws the duplicate-port error and leaves the selector, trace included, unchanged; otherwise the port is added, the registration recorded and its wait begun; without a synchronous callback exactly one `Unlink` cancel thunk is pushed; with one, the port's callback runs at once, so the pending cancel thunks run and `execute` of the registration's own handler on the delivered data settles the selector, which is left done with no cancel thunk pushed |
| Selectors.RegOf | lib/operation.js:181-321 | a call records a port-holding registration exactly when it is a `take` or `put`, and then on the port `output || port` / `input || port` resolves to |
| Selectors.Register | lib/operation.js:181-321 | on a done selector every method returns `undefined` and changes nothing (the `_done` tests at lines 182, 209, 236, 266, 275, 294 and 311); it throws iff it is a `take`/`put` whose resolved port is already registered, and then with the duplicate-port error and no state change; otherwise it returns the selector, appends exactly the registration the call describes, with its handlers in their roles, and first records its wait as begun; `once` also pushes its `Unlisten` cancel thunk; a task that calls back inside `thunk(...)` settles the selector at once through the `thunk` callback |
| SelectorProperties.FireKeepsWellFormed | lib/operation.js:193-318 | every completion callback keeps the selector well formed: a done selector holds no cancel thunks or ports, cancel thunks undo earlier registrations in increasing order, the port set equals the ports of the `take`/`put` registrations, and no port is registered twice |
| SelectorProperties.RegisterKeepsWellFormed | lib/operation.js:181-232 | every registration method keeps the selector well formed, whether it registers, throws, completes synchronously or does nothing |
| SelectorProperties.CleanupIdempotent | lib/operation.js:144-146 | running `cleanup` twice equals running it once |
| SelectorProperties.CleanupCancelsInRegistrationOrder | lib/operation.js:147-149 | on a well-formed running selector, `cleanup` appends exactly the cancel effects, one per pending registration, with strictly increasing registration numbers |
| SelectorProperties.DuplicatePortRejected | lib/operation.js:187-189 | on a well-formed running selector, `take` or `put` of a port held by any earlier registration throws the duplicate-port error, with no state change and no wait begun |
| SelectorProperties.ChannelAndItsOutputCollide | lib/operation.js:185-190 | a `take` on a channel and a later `take` on that channel's `output` port collide: the second throws |
| SelectorProperties.TakeThenPutOnOnePortCollide | lib/operation.js:187-217 | `take` and `put` share one port set: a `put` on a bare port already used by a `take` throws |
| SelectorProperties.SyncCompletionPushesNoCancel | lib/operation.js:193-202 | a port that waits gets exactly one `Unlink` cancel thunk pushed, for the new registration; a port that calls back inside `port.take`/`port.put` leaves the selector done with no cancel thunk, after the earlier waits were cancelled in order and exactly one settlement |
| SelectorProperties.RegisterSettlesAtMostOnce | lib/operation.js:193-202 | a registration method never un-settles a selector; it adds a settlement only when the selector was running and becomes done, and then exactly one |
| Setup.RunSetup | lib/operation.js:114-115 | the setup function only appends registrations, and a done selector stays done |
| Setup.Select | lib/operation.js:111-121 | the start throws exactly when the setup function ends by an exception, its own `throw` or one raised by a registration call, and then with that very error, after `cleanup` has run every pending cancel thunk of the selector as setup left it, adding no settlement of its own; the selector is then done with no cancel thunks or ports; the selector is well formed and settled at most once; if setup returns normally, it is settled exactly when it is done |
| Setup.SetupSettlesAtMostOnce | lib/operation.js:111-121 | across the whole setup function, synchronous callbacks settle the selector exactly once if it ends done and never otherwise, and the selector stays well formed |
| Setup.SetupFailureRethrows | lib/operation.js:116-119 | a `throw` in the setup function after normally completing statements makes the start throw that same error, after `cleanup`; `select` adds no resolve or reject of its own |
| Setup.CallFailureRethrows | lib/operation.js:114-118 | a registration call that throws inside the setup function (a duplicate port, lines 187-189) ends the setup function: the start throws that very error after `cleanup` of the selector as the earlier statements left it, and the later statements never run |
| Setup.ImmediateThrowInvokesNoContinuation | lib/operation.js:113-119 | a setup function that throws at once: the start throws that error, and nothing is resolved, rejected or cancelled |
| Setup.ThrowAfterThunkStillSettles | lib/operation.js:116-118 | a setup function that registers a `thunk` and then throws makes the start throw that error with nothing settled, yet the task's later callback (lines 278-285) still settles the operation, because `cleanup` has no cancel thunk for it |
| Setup.ChainAfterSynchronousSettlementThrows | lib/operation.js:311 | a chained call on the `undefined` that a done selector returns throws a `TypeError` to the starter, after the operation already resolved |
| Race.EnrollKeepsInv | lib/operation.js:181-321 | every registration keeps the race invariant: well formed, settled exactly once iff done, and every armed cancellable registration still has its cancel thunk pending |
| Race.DeliverKeepsInv | lib/operation.js:193-318 | every callback except a task calling back after settlement keeps the race invariant |
| Race.SettlesAtMostOnce | lib/operation.js:144-168 | in every interleaving of registrations and callbacks with no late task callback, the operation is settled at most once, and exactly once when the selector is done |
| Race.TaskFreeRunIsHonest | lib/operation.js:274-290 | a race that registers no `thunk` never has a late task callback |
| Race.FirstCallbackSettles | lib/operation.js:144-152 | the first armed callback on a running selector settles it exactly once and disarms every cancellable wait |
| Race.LateGuardedCallbackIsInert | lib/operation.js:240-250 | an `await` success or failure, or a timer (line 315), firing after settlement leaves the selector unchanged |
| Race.LateTakeWouldSettleAgain | lib/operation.js:193-196 | a `take` callback after a timeout won would settle a second time: the unguarded callbacks depend on cancellation |
| Race.LateTaskCallbackSettlesTwice | lib/operation.js:274-290 | a task registered by `thunk` that calls back after a timeout won settles the operation a second time |
| Race.TakeBeatsTimeout | lib/operation.js:181-205 | `take` racing `timeout`: the port delivers `x` first, its wait is unlinked, the selector resolves with `x`, and the later timer firing changes nothing |
| Race.TimeoutBeatsOnce | lib/operation.js:293-321 | `once` racing `timeout`: the timer wins, the listener's `removeListener` cancel thunk runs first (an `Unlisten` effect), then the timeout handler is called with `undefined`, and no registration stays armed |

## Left out

- The timer and scheduler adapters `sleep`, `defer` and `nextTick` (lib/operation.js:9-28) are thin wrappers over the host's timer services. A timer is an abstract `Elapsed` signal. The duration `timeout` receives is recorded but not interpreted, and the order in which sources fire is the order of the signals.
- The forwarding adapters `once`, `task`, `await`, `take` and `put` (lib/operation.js:30-76) only hand the continuations to an event emitter, a promise or a port. Their port resolution `chan.output || chan` is the same as the selector's (`ReceiveEnd`, `SendEnd`), and the `thunk` adapter's mapping is `ThunkOutcome`.
- `new Promise(task)` in `Selector.task` (lib/operation.js:268) becomes an `await` registration on a promise built from the task. When and how the task resolves that promise, including a synchronous throw in the task, is not modelled.
- The disabled debug-wrapping block (lib/operation.js:132-141) is dead code.
- `LinkList.remove`, `coroutine.run`, `util.isGenFun` and `util.panic` are not part of this model. The first two are logged effects. Generator detection is the `Gen` handler tag.
- The `WeakSet` of ports is a set of integer port ids; two references are the same port exactly when their ids agree.
- The cancel thunk of `once` calls `event.removeListener(listener)` without the event type (lib/operation.js:302). It is recorded as an abstract `Unlisten` effect. Whether the emitter accepts that call, and what happens if it throws inside `cleanup`, is not modelled.
- The unused `_listeners` field (lib/operation.js:172).
- Exceptions thrown by collaborators are not modelled: by `port.take`, `port.put`, the task, `event.on`, `setTimeout`, or the selector's own `resolve`/`reject`. The model covers only these exceptions: the duplicate-port error, a chained call on `undefined`, and the setup function's own `throw`.
- A handler that calls back into the selector while it runs is not modelled. A handler is known only by whether it returns or throws.
- An event that fires synchronously inside `event.on` is not modelled, nor a thenable that calls back synchronously inside `promise.then` (lib/operation.js:239): an `await` or `task` registration always calls back later, as a separate signal. Only ports (inside `port.take`/`port.put`) and callback-style tasks (inside `thunk(...)`) may call back synchronously.
- JavaScript truthiness of `NaN` and `-0`: numbers are integers.
- Race.SettlesAtMostOnce: the race starts from a running selector and has no step for a setup function that throws out of `select` (lib/operation.js:116-118). After such a throw the selector is done with no settlement, outside the race invariant, and a `thunk` task registered before the throw still settles the operation when it calls back (`Setup.ThrowAfterThunkStillSettles`).
- Race.SettlesAtMostOnce: it assumes that the `once` cancel thunk really unsubscribes the listener, so that a removed listener never fires. The source calls `event.removeListener(listener)` with no event type (lib/operation.js:302); on an emitter whose `removeListener` takes the type first, that call removes nothing or throws inside `cleanup`, and a later event would settle the operation again. `Race.FirstCallbackSettles` and `Race.TimeoutBeatsOnce` disarm the listener on the same assumption.
- Race.SettlesAtMostOnce: it assumes that no task registered by `thunk` calls back after settlement. The source neither cancels nor guards that callback, so without the assumption the property is false (`Race.LateTaskCallbackSettlesTwice`).

=== FILE: dispatch.dfy ===
/** The dispatch policy of a selector: how the payload of the winning
    registration becomes the selector's settlement, through a handler that is
    absent, a plain function or a generator function (`execute`), and how a
    callback-style task's `(err, data)` pair becomes a settlement. */
module Dispatch {
  import opened Values

  /** A handler as the source sees it: any non-function value (`undefined`
      included), a plain function, or a generator function (the source tells
      the last two apart with `isGenFun`). */
  datatype Handler = NotFunction(v: Val) | Plain(fn: FnId) | Gen(fn: FnId)

  /** The handler a caller omits. */
  const NoHandler: Handler := NotFunction(Undefined)

  /** `typeof h === 'function'`. */
  predicate IsFunction(h: Handler) {
    h.Plain? || h.Gen?
  }

  /** `if (h)`: functions are truthy, other values by `Truthy`. */
  predicate HandlerTruthy(h: Handler) {
    IsFunction(h) || Truthy(h.v)
  }

  /** What a synchronous call of a plain function does. */
  datatype Outcome = Returns(value: Val) | Throws(error: Val)

  /** The behaviour of the caller's plain functions: calling function `fn` with
      `args` returns or throws. User code is outside the model, so every
      operation that may call a handler takes this as a parameter. */
  type Behaviour = (FnId, seq<Val>) -> Outcome

  /** A cancel thunk, named by the registration it undoes: `LinkList.remove`
      of a port's pending item, or `removeListener` of an event listener. */
  datatype Cancel = Unlink(reg: nat) | Unlisten(reg: nat)

  /** One observable action of the selector, in the order it happens. */
  datatype Effect =
    | Begun(reg: nat)                      // the external wait of registration `reg` was started
    | Cancelled(cancel: Cancel)            // a cancel thunk ran
    | Called(fn: FnId, args: seq<Val>)     // a plain handler was called
    | Resolved(value: Val)                 // the selector's own resolve was called
    | Rejected(error: Val)                 // the selector's own reject was called
    | Ran(fn: FnId, arg: Val)              // `run(fn(arg), resolve, reject)` took over settlement

  /** The effects that settle the selector's enclosing operation. */
  predicate Settles(e: Effect) {
    e.Resolved? || e.Rejected? || e.Ran?
  }

  /** How many settling effects a trace holds. */
  function SettleCount(t: seq<Effect>): (n: nat) {
    if t == [] then 0 else (if Settles(t[0]) then 1 else 0) + SettleCount(t[1..])
  }

  lemma {:induction false} SettleCountAppend(a: seq<Effect>, b: seq<Effect>)
    ensures SettleCount(a + b) == SettleCount(a) + SettleCount(b)
  {
    if a == [] {
      assert a + b == b;
    } else {
      assert (a + b)[1..] == a[1..] + b;
      SettleCountAppend(a[1..], b);
    }
  }

  lemma SettleCountPair(a: Effect, b: Effect)
    ensures SettleCount([a, b]) == SettleCount([a]) + SettleCount([b])
  {
  }

  /** The effects of running the cancel thunks `cs`, one after another. */
  function CancelEffects(cs: seq<Cancel>): (e: seq<Effect>)
    ensures |e| == |cs|
    ensures forall i :: 0 <= i < |cs| ==> e[i] == Cancelled(cs[i])
    ensures SettleCount(e) == 0
  {
    if cs == [] then [] else [Cancelled(cs[0])] + CancelEffects(cs[1..])
  }

  /** A settlement of the selector's enclosing operation. */
  datatype Settlement = Resolve(value: Val) | Reject(error: Val)

  function Settle(st: Settlement): (e: Effect)
    ensures Settles(e)
  {
    match st
    case Resolve(v) => Resolved(v)
    case Reject(err) => Rejected(err)
  }

  /** `try { resolve(fn(obj)) } catch (err) { reject(err) }`. */
  function TryResolve(o: Outcome): (st: Settlement)
    ensures st.Resolve? <==> o.Returns?
    ensures st.Resolve? ==> st.value == o.value
    ensures st.Reject? ==> st.error == o.error
  {
    match o
    case Returns(v) => Resolve(v)
    case Throws(err) => Reject(err)
  }

  /** The callback a callback-style task receives: `err ? reject(err) :
      resolve(data)`. */
  function ThunkOutcome(err: Val, data: Val): (st: Settlement)
    ensures st.Reject? <==> Truthy(err)
    ensures st.Reject? ==> st.error == err
    ensures st.Resolve? ==> st.value == data
  {
    if Truthy(err) then Reject(err) else Resolve(data)
  }

  /** `execute(selector, fn, obj)`: a generator function is handed to the
      coroutine engine, a plain function is called and its result or its
      exception settles the selector, any other value leaves `obj` as the
      result. Exactly one settling effect, and it comes last. */
  function Execute(h: Handler, obj: Val, beh: Behaviour): (e: seq<Effect>)
    ensures |e| > 0 && Settles(e[|e| - 1]) && SettleCount(e) == 1
    ensures !IsFunction(h) ==> e == [Resolved(obj)]
    ensures h.Plain? ==> e == [Called(h.fn, [obj]), Settle(TryResolve(beh(h.fn, [obj])))]
    ensures h.Gen? ==> e == [Ran(h.fn, obj)]
  {
    match h
    case Gen(fn) => [Ran(fn, obj)]
    case Plain(fn) =>
      var done := Settle(TryResolve(beh(fn, [obj])));
      SettleCountPair(Called(fn, [obj]), done);
      [Called(fn, [obj]), done]
    case NotFunction(_) => [Resolved(obj)]
  }

  /** A promise's success callback in `await`: `res ? execute(res, obj) :
      resolve(obj)`. */
  function OnFulfilled(res: Handler, obj: Val, beh: Behaviour): (e: seq<Effect>)
    ensures SettleCount(e) == 1
    ensures !IsFunction(res) ==> e == [Resolved(obj)]
    ensures IsFunction(res) ==> e == Execute(res, obj, beh)
  {
    if HandlerTruthy(res) then Execute(res, obj, beh) else [Resolved(obj)]
  }

  /** A promise's failure callback in `await`: `rej ? execute(rej, err) :
      reject(err)`. A truthy handler that is not a function resolves the
      selector with the error, because `execute` treats it as absent. */
  function OnRejected(rej: Handler, err: Val, beh: Behaviour): (e: seq<Effect>)
    ensures SettleCount(e) == 1
    ensures !HandlerTruthy(rej) ==> e == [Rejected(err)]
    ensures rej.NotFunction? && Truthy(rej.v) ==> e == [Resolved(err)]
    ensures IsFunction(rej) ==> e == Execute(rej, err, beh)
  {
    if HandlerTruthy(rej) then Execute(rej, err, beh) else [Rejected(err)]
  }

  /** The completion callback of `Selector.thunk`. A function handler is
      wrapped in a plain function that calls `handler(err, data)` and returns
      nothing, so the selector resolves with `undefined` whatever the handler
      returns, and rejects only when the handler throws; a generator function
      is merely instantiated. Without a function handler the `(err, data)`
      pair settles the selector as the `thunk` adapter does. */
  function OnThunkDone(h: Handler, err: Val, data: Val, beh: Behaviour): (e: seq<Effect>)
    ensures |e| > 0 && Settles(e[|e| - 1]) && SettleCount(e) == 1
    ensures !IsFunction(h) ==> e == [Settle(ThunkOutcome(err, data))]
    ensures IsFunction(h) && e[|e| - 1].Resolved? ==> e[|e| - 1].value == Undefined
    ensures h.Plain? ==> e[0] == Called(h.fn, [err, data])
    ensures h.Plain? ==> (e[|e| - 1].Rejected? <==> beh(h.fn, [err, data]).Throws?)
    ensures h.Plain? && beh(h.fn, [err, data]).Throws? ==>
      e == [Called(h.fn, [err, data]), Rejected(beh(h.fn, [err, data]).error)]
    ensures h.Plain? && beh(h.fn, [err, data]).Returns? ==> e == [Called(h.fn, [err, data]), Resolved(Undefined)]
    ensures h.Gen? ==> e == [Resolved(Undefined)]
  {
    match h
    case Plain(fn) =>
      var wrapped := match beh(fn, [err, data])
        case Returns(_) => Returns(Undefined)
        case Throws(x) => Throws(x);
      var done := Settle(TryResolve(wrapped));
      SettleCountPair(Called(fn, [err, data]), done);
      [Called(fn, [err, data]), done]
    case Gen(_) => [Resolved(Undefined)]
    case NotFunction(_) => [Settle(ThunkOutcome(err, data))]
  }
}

=== FILE: race.dfy ===
/** A selector racing its sources. The sources are modelled by the set of
    registrations that can still call back ("armed"): a port delivers to a
    pending `take`/`put` at most once and never after the wait was unlinked,
    an event listener fires until its `removeListener` cancel thunk runs
    (the race takes that call to unsubscribe it), a promise settles once, a
    timer fires once, and a well-behaved callback-style task calls back once.
    Nothing can cancel a task or a timer, and nothing cancels a promise's
    callbacks. */
module Race {
  import opened Values
  import opened Dispatch
  import opened Selectors
  import opened SelectorProperties

  /** A selector together with the registrations whose source may still
      call back. */
  datatype World = World(sel: Selector, armed: set<nat>)

  /** The registrations a list of cancel thunks undoes. */
  function Targets(cs: seq<Cancel>): (ks: set<nat>) {
    set i | 0 <= i < |cs| :: cs[i].reg
  }

  /** Registrations that push a cancel thunk. */
  predicate Cancellable(r: Registration) {
    HoldsPort(r) || r.OnceReg?
  }

  /** A registration method called in the race. A newly waiting registration
      is armed; one whose source called back synchronously is not, and the
      waits its settlement cancelled are disarmed. */
  function Enroll(w: World, call: Call, beh: Behaviour): (v: World)
    ensures v.sel == Register(w.sel, call, beh).sel
  {
    var r := Register(w.sel, call, beh);
    if w.sel.done || r.Thrown? then World(r.sel, w.armed)
    else if r.sel.done then World(r.sel, w.armed - Targets(w.sel.cancels))
    else World(r.sel, w.armed + {|w.sel.regs|})
  }

  /** A source calling back. An unarmed registration cannot call back, so the
      world is unchanged. Otherwise its callback runs; the registration is
      spent (an event listener stays subscribed until its `Unlisten` runs)
      and the waits the callback's `cleanup` cancelled are disarmed. */
  function Deliver(w: World, sig: Signal, beh: Behaviour): (v: World)
    ensures sig.reg !in w.armed ==> v == w
  {
    if sig.reg !in w.armed || sig.reg >= |w.sel.regs| || !Answers(w.sel.regs[sig.reg], sig) then w
    else
      var cancelled := if w.sel.done then {} else Targets(w.sel.cancels);
      var spent := if w.sel.regs[sig.reg].OnceReg? then {} else {sig.reg};
      World(Fire(w.sel, sig, beh), w.armed - cancelled - spent)
  }

  /** One step of the race: the setup registers a source, or a source calls
      back. */
  datatype Action = Enrol(call: Call) | Occur(sig: Signal)

  function Step(w: World, a: Action, beh: Behaviour): (v: World) {
    match a
    case Enrol(call) => Enroll(w, call, beh)
    case Occur(sig) => Deliver(w, sig, beh)
  }

  function Run(w: World, acts: seq<Action>, beh: Behaviour): (v: World)
    decreases |acts|
  {
    if acts == [] then w else Run(Step(w, acts[0], beh), acts[1..], beh)
  }

  /** The invariant of a race: the selector is well formed; it has settled
      exactly once if it is done and not at all otherwise; and every armed
      registration that pushed a cancel thunk still has it pending, so the
      selector is running. */
  predicate Inv(w: World) {
    && WellFormed(w.sel)
    && SettleCount(w.sel.trace) == (if w.sel.done then 1 else 0)
    && (forall k :: k in w.armed ==> k < |w.sel.regs|)
    && (forall k :: k in w.armed && k < |w.sel.regs| && Cancellable(w.sel.regs[k]) ==>
          !w.sel.done && k in Targets(w.sel.cancels))
  }

  /** A callback-style task calling back after the selector settled: its
      callback is neither cancelled nor guarded by `_done`. */
  predicate LateThunk(w: World, sig: Signal) {
    && w.sel.done
    && sig.reg in w.armed
    && sig.reg < |w.sel.regs|
    && w.sel.regs[sig.reg].ThunkReg?
  }

  /** A run in which no task calls back after settlement. */
  predicate Honest(w: World, acts: seq<Action>, beh: Behaviour)
    decreases |acts|
  {
    acts == [] ||
    ((acts[0].Occur? ==> !LateThunk(w, acts[0].sig)) && Honest(Step(w, acts[0], beh), acts[1..], beh))
  }

  lemma FreshRaceInv()
    ensures Inv(World(Fresh, {}))
  {
  }

  lemma TargetsAppend(cs: seq<Cancel>, c: Cancel)
    ensures Targets(cs + [c]) == Targets(cs) + {c.reg}
  {
    var all := cs + [c];
    forall k | k in Targets(all)
      ensures k in Targets(cs) + {c.reg}
    {
      var i :| 0 <= i < |all| && all[i].reg == k;
      if i < |cs| {
        assert all[i] == cs[i];
      }
    }
    forall k | k in Targets(cs)
      ensures k in Targets(all)
    {
      var i :| 0 <= i < |cs| && cs[i].reg == k;
      assert all[i] == cs[i];
    }
    assert all[|cs|] == c;
  }

  /** A registration method keeps the invariant. */
  lemma EnrollKeepsInv(w: World, call: Call, beh: Behaviour)
    requires Inv(w)
    ensures Inv(Enroll(w, call, beh))
  {
    var s := w.sel;
    var r := Register(s, call, beh);
    var v := Enroll(w, call, beh);
    RegisterKeepsWellFormed(s, call, beh);
    RegisterSettlesAtMostOnce(s, call, beh);
    if s.done || r.Thrown? {
      return;
    }
    var k := |s.regs|;
    assert r.sel.regs[..k] == s.regs;
    forall j | 0 <= j < k
      ensures r.sel.regs[j] == s.regs[j]
    {
      assert r.sel.regs[..k][j] == s.regs[j];
    }
    if r.sel.done {
      forall j | j in v.armed && j < |v.sel.regs|
        ensures !Cancellable(v.sel.regs[j])
      {
        assert j in w.armed && j < k;
      }
    } else {
      if call.Take? || call.Put? {
        SyncCompletionPushesNoCancel(s, call, beh);
        assert r.sel.cancels == s.cancels + [Unlink(k)];
        TargetsAppend(s.cancels, Unlink(k));
      } else if call.Once? {
        assert r.sel.cancels == s.cancels + [Unlisten(k)];
        TargetsAppend(s.cancels, Unlisten(k));
      } else {
        assert r.sel.cancels == s.cancels;
        assert !Cancellable(r.sel.regs[k]);
      }
    }
  }

  /** A callback keeps the invariant, unless it is a task calling back
      after settlement. */
  lemma DeliverKeepsInv(w: World, sig: Signal, beh: Behaviour)
    requires Inv(w)
    requires !LateThunk(w, sig)
    ensures Inv(Deliver(w, sig, beh))
  {
  }

  /** Every run without a late task callback keeps the invariant. */
  lemma {:induction false} HonestRunKeepsInv(w: World, acts: seq<Action>, beh: Behaviour)
    requires Inv(w) && Honest(w, acts, beh)
    ensures Inv(Run(w, acts, beh))
    decreases |acts|
  {
    if acts != [] {
      match acts[0] {
        case Enrol(call) => EnrollKeepsInv(w, call, beh);
        case Occur(sig) => DeliverKeepsInv(w, sig, beh);
      }
      HonestRunKeepsInv(Step(w, acts[0], beh), acts[1..], beh);
    }
  }

  /** At-most-once settlement: however registrations and callbacks
      interleave, a race that starts from a fresh selector and has no late
      task callback settles the enclosing operation at most once, and exactly
      once when the selector is done. */
  lemma SettlesAtMostOnce(acts: seq<Action>, beh: Behaviour)
    requires Honest(World(Fresh, {}), acts, beh)
    ensures var v := Run(World(Fresh, {}), acts, beh);
      SettleCount(v.sel.trace) == (if v.sel.done then 1 else 0)
  {
    FreshRaceInv();
    HonestRunKeepsInv(World(Fresh, {}), acts, beh);
  }

  /** A race that registers no callback-style task is always honest. */
  lemma {:induction false} TaskFreeRunIsHonest(w: World, acts: seq<Action>, beh: Behaviour)
    requires forall k :: 0 <= k < |w.sel.regs| ==> !w.sel.regs[k].ThunkReg?
    requires forall i :: 0 <= i < |acts| ==> !(acts[i].Enrol? && acts[i].call.Thunk?)
    ensures Honest(w, acts, beh)
    decreases |acts|
  {
    if acts != [] {
      var v := Step(w, acts[0], beh);
      if acts[0].Enrol? {
        var r := Register(w.sel, acts[0].call, beh);
        if !w.sel.done && r.Returned? {
          forall k | 0 <= k < |v.sel.regs|
            ensures !v.sel.regs[k].ThunkReg?
          {
            if k < |w.sel.regs| {
              assert v.sel.regs[..|w.sel.regs|][k] == w.sel.regs[k];
            }
          }
        }
      }
      TaskFreeRunIsHonest(v, acts[1..], beh);
    }
  }

  /** The first armed source to call back settles a running selector, with
      exactly one settling effect, and disarms every cancellable wait. */
  lemma FirstCallbackSettles(w: World, sig: Signal, beh: Behaviour)
    requires Inv(w) && !w.sel.done
    requires sig.reg in w.armed && Answers(w.sel.regs[sig.reg], sig)
    ensures Deliver(w, sig, beh).sel.done
    ensures SettleCount(Deliver(w, sig, beh).sel.trace) == 1
    ensures forall k :: k in Deliver(w, sig, beh).armed ==> !Cancellable(w.sel.regs[k])
  {
  }

  /** An `await` or `timeout` whose source fires after settlement changes
      nothing at all. */
  lemma LateGuardedCallbackIsInert(w: World, sig: Signal, beh: Behaviour)
    requires Inv(w) && w.sel.done
    requires sig.reg < |w.sel.regs| && (sig.Fulfilled? || sig.Broken? || sig.Elapsed?)
    ensures Deliver(w, sig, beh).sel == w.sel
  {
  }

  /** The exactly-once guarantee rests on cancellation for the unguarded
      kinds: were a `take` to be called back after settlement, it would
      settle again. */
  lemma LateTakeWouldSettleAgain(p: PortId, x: Val, y: Val, ms: int, beh: Behaviour)
    ensures var s1 := Register(Fresh, Take(Chan(p, None, None), NoHandler, None), beh).sel;
      var s2 := Register(s1, Timeout(ms, NoHandler), beh).sel;
      var s3 := Fire(s2, Elapsed(1), beh);
      SettleCount(s3.trace) == 1 && SettleCount(Fire(s3, Data(0, y), beh).trace) == 2
  {
    var s1 := Register(Fresh, Take(Chan(p, None, None), NoHandler, None), beh).sel;
    RegisterSettlesAtMostOnce(Fresh, Take(Chan(p, None, None), NoHandler, None), beh);
    RegisterSettlesAtMostOnce(s1, Timeout(ms, NoHandler), beh);
  }

  /** A fresh selector after `thunk(t)` and `timeout(ms)`, both armed. */
  lemma ThunkAndTimeoutEnrolled(t: nat, ms: int, beh: Behaviour)
    ensures Enroll(Enroll(World(Fresh, {}), Thunk(t, NoHandler, None), beh), Timeout(ms, NoHandler), beh)
      == World(Selector(false, [], {}, [ThunkReg(t, NoHandler), TimeoutReg(ms, NoHandler)], [Begun(0), Begun(1)]), {0, 1})
  {
    var w1 := Enroll(World(Fresh, {}), Thunk(t, NoHandler, None), beh);
    assert w1 == World(Selector(false, [], {}, [ThunkReg(t, NoHandler)], [Begun(0)]), {0});
  }

  /** A fresh selector after `take(p)` and `timeout(ms)`, both armed. */
  lemma TakeAndTimeoutEnrolled(p: PortId, ms: int, beh: Behaviour)
    ensures Enroll(Enroll(World(Fresh, {}), Take(Chan(p, None, None), NoHandler, None), beh), Timeout(ms, NoHandler), beh)
      == World(Selector(false, [Unlink(0)], {p}, [TakeReg(p, NoHandler), TimeoutReg(ms, NoHandler)], [Begun(0), Begun(1)]), {0, 1})
  {
    var w1 := Enroll(World(Fresh, {}), Take(Chan(p, None, None), NoHandler, None), beh);
    assert w1 == World(Selector(false, [Unlink(0)], {p}, [TakeReg(p, NoHandler)], [Begun(0)]), {0});
  }

  /** A fresh selector after `once(em, "done")` and `timeout(ms, fn)`, both
      armed. */
  lemma OnceAndTimeoutEnrolled(em: nat, ms: int, fn: FnId, beh: Behaviour)
    ensures Enroll(Enroll(World(Fresh, {}), Once(em, "done", NoHandler), beh), Timeout(ms, Plain(fn)), beh)
      == World(Selector(false, [Unlisten(0)], {}, [OnceReg(em, "done", NoHandler), TimeoutReg(ms, Plain(fn))], [Begun(0), Begun(1)]), {0, 1})
  {
    var w1 := Enroll(World(Fresh, {}), Once(em, "done", NoHandler), beh);
    assert w1 == World(Selector(false, [Unlisten(0)], {}, [OnceReg(em, "done", NoHandler)], [Begun(0)]), {0});
  }

  /** A callback-style task is never cancelled and its callback does not
      test `_done`: a task that calls back after a timeout won settles the
      operation a second time. */
  lemma LateTaskCallbackSettlesTwice(t: nat, ms: int, data: Val, beh: Behaviour)
    ensures var w2 := Enroll(Enroll(World(Fresh, {}), Thunk(t, NoHandler, None), beh), Timeout(ms, NoHandler), beh);
      var w3 := Deliver(w2, Elapsed(1), beh);
      var w4 := Deliver(w3, Callback(0, Undefined, data), beh);
      && Inv(w3) && LateThunk(w3, Callback(0, Undefined, data))
      && SettleCount(w4.sel.trace) == 2
      && w4.sel.trace[|w4.sel.trace| - 1] == Resolved(data)
  {
    ThunkAndTimeoutEnrolled(t, ms, beh);
    TimerFiresOverTask(t, ms, beh);
    var regs := [ThunkReg(t, NoHandler), TimeoutReg(ms, NoHandler)];
    var w3 := World(Selector(true, [], {}, regs, [Begun(0), Begun(1), Resolved(Undefined)]), {0});
    TaskCallsBackLate(t, ms, data, beh);
    SettleCountAppend(w3.sel.trace, [Resolved(data)]);
  }

  /** The timer firing on the selector `thunk` and `timeout` set up: it
      settles the selector and disarms itself, the task stays armed. */
  lemma TimerFiresOverTask(t: nat, ms: int, beh: Behaviour)
    ensures var regs := [ThunkReg(t, NoHandler), TimeoutReg(ms, NoHandler)];
      var w3 := Deliver(World(Selector(false, [], {}, regs, [Begun(0), Begun(1)]), {0, 1}), Elapsed(1), beh);
      && w3 == World(Selector(true, [], {}, regs, [Begun(0), Begun(1), Resolved(Undefined)]), {0})
      && Inv(w3)
  {
    var regs := [ThunkReg(t, NoHandler), TimeoutReg(ms, NoHandler)];
    var w3 := World(Selector(true, [], {}, regs, [Begun(0), Begun(1), Resolved(Undefined)]), {0});
    assert SettleCount(w3.sel.trace) == 1 by {
      assert w3.sel.trace[1..] == [Begun(1), Resolved(Undefined)];
      assert w3.sel.trace[1..][1..] == [Resolved(Undefined)];
    }
  }

  /** The task calling back on that settled selector resolves it again. */
  lemma TaskCallsBackLate(t: nat, ms: int, data: Val, beh: Behaviour)
    ensures var regs := [ThunkReg(t, NoHandler), TimeoutReg(ms, NoHandler)];
      var w3 := World(Selector(true, [], {}, regs, [Begun(0), Begun(1), Resolved(Undefined)]), {0});
      Deliver(w3, Callback(0, Undefined, data), beh).sel.trace == w3.sel.trace + [Resolved(data)]
  {
  }


  /** A `take` racing a `timeout`: the channel delivers `x` first, the
      selector resolves with `x`, the port wait is unlinked, and the timer
      firing later changes nothing. */
  lemma TakeBeatsTimeout(p: PortId, x: Val, ms: int, beh: Behaviour)
    ensures var w2 := Enroll(Enroll(World(Fresh, {}), Take(Chan(p, None, None), NoHandler, None), beh), Timeout(ms, NoHandler), beh);
      var w3 := Deliver(w2, Data(0, x), beh);
      && w3.sel.trace == [Begun(0), Begun(1), Cancelled(Unlink(0)), Resolved(x)]
      && Deliver(w3, Elapsed(1), beh) == World(w3.sel, {})
  {
    TakeAndTimeoutEnrolled(p, ms, beh);
    assert Targets([Unlink(0)]) == {0} by {
      assert [Unlink(0)][0] == Unlink(0);
    }
  }

  /** A `once` racing a `timeout` whose handler `fn` runs: the timer wins,
      the handler is called with no payload, and the listener's
      `removeListener` cancel thunk ran before it. */
  lemma TimeoutBeatsOnce(em: nat, ms: int, fn: FnId, beh: Behaviour)
    ensures var w2 := Enroll(Enroll(World(Fresh, {}), Once(em, "done", NoHandler), beh), Timeout(ms, Plain(fn)), beh);
      var w3 := Deliver(w2, Elapsed(1), beh);
      && w3.sel.trace[..3] == [Begun(0), Begun(1), Cancelled(Unlisten(0))]
      && w3.sel.trace[3] == Called(fn, [Undefined])
      && w3.armed == {}
  {
    OnceAndTimeoutEnrolled(em, ms, fn, beh);
    TimerFiresOverListener(em, ms, fn, beh);
  }

  /** The timer firing on the selector `once` and `timeout` set up. */
  lemma TimerFiresOverListener(em: nat, ms: int, fn: FnId, beh: Behaviour)
    ensures var regs := [OnceReg(em, "done", NoHandler), TimeoutReg(ms, Plain(fn))];
      Deliver(World(Selector(false, [Unlisten(0)], {}, regs, [Begun(0), Begun(1)]), {0, 1}), Elapsed(1), beh)
        == World(Selector(true, [], {}, regs, [Begun(0), Begun(1), Cancelled(Unlisten(0))] + Execute(Plain(fn), Undefined, beh)), {})
  {
    var regs := [OnceReg(em, "done", NoHandler), TimeoutReg(ms, Plain(fn))];
    var s := Selector(false, [Unlisten(0)], {}, regs, [Begun(0), Begun(1)]);
    assert Targets([Unlisten(0)]) == {0} by {
      assert [Unlisten(0)][0] == Unlisten(0);
    }
    assert Cleanup(s) == Selector(true, [], {}, regs, [Begun(0), Begun(1), Cancelled(Unlisten(0))]) by {
      assert CancelEffects([Unlisten(0)]) == [Cancelled(Unlisten(0))];
    }
  }
}

=== FILE: selector.dfy ===
/** The selector of `select`: its state, `cleanup`, the registration methods
    `take`, `put`, `await`, `task`, `thunk`, `once` and `timeout`, and the
    completion callbacks those methods install. Every operation is a pure
    step from one selector state to the next; the selector's observable
    actions accumulate in `trace`. */
module Selectors {
  import opened Values
  import opened Dispatch

  /** A channel argument. A channel object exposes its receiving port as
      `output` and its sending port as `input`; a port passed directly has
      neither field. */
  datatype Chan = Chan(id: PortId, input: Option<PortId>, output: Option<PortId>)

  /** `port.output || port`: the port `take` waits on. */
  function ReceiveEnd(c: Chan): (p: PortId)
    ensures c.output.Some? ==> p == c.output.value
    ensures c.output.None? ==> p == c.id
  {
    if c.output.Some? then c.output.value else c.id
  }

  /** `port.input || port`: the port `put` offers to. */
  function SendEnd(c: Chan): (p: PortId)
    ensures c.input.Some? ==> p == c.input.value
    ensures c.input.None? ==> p == c.id
  {
    if c.input.Some? then c.input.value else c.id
  }

  /** The promise `await` attaches to: one given by the caller, or the
      `new Promise(task)` that `task` builds. */
  datatype Future = Promise(id: nat) | FromTask(task: nat)

  /** One registration, as its completion callback remembers it. */
  datatype Registration =
    | TakeReg(port: PortId, handler: Handler)
    | PutReg(port: PortId, value: Val, handler: Handler)
    | AwaitReg(future: Future, onValue: Handler, onError: Handler)
    | ThunkReg(thunk: nat, handler: Handler)
    | OnceReg(emitter: nat, kind: string, handler: Handler)
    | TimeoutReg(ms: int, handler: Handler)

  /** Registrations that occupy a port. */
  predicate HoldsPort(r: Registration) {
    r.TakeReg? || r.PutReg?
  }

  /** Registrations whose callback runs `cleanup` and dispatches without
      first testing `_done`; only `await` and `timeout` test it. */
  predicate Unguarded(r: Registration) {
    r.TakeReg? || r.PutReg? || r.OnceReg? || r.ThunkReg?
  }

  /** The selector's state. `done` is `_done`, `cancels` is `_cancels` (in
      push order), `ports` is `_ports`; `cleanup` sets the last two to `null`,
      modelled as empty since nothing reads them afterwards. `regs` holds the
      registrations made so far, indexed by registration number, and `trace`
      the actions taken so far. */
  datatype Selector = Selector(
    done: bool,
    cancels: seq<Cancel>,
    ports: set<PortId>,
    regs: seq<Registration>,
    trace: seq<Effect>)

  /** `new Selector(resolve, reject)`. */
  const Fresh: Selector := Selector(false, [], {}, [], [])

  /** `cleanup(selector)`: the first call marks the selector done, runs every
      pending cancel thunk once in push order and drops the cancel list and
      the port set; a later call changes nothing. */
  function Cleanup(s: Selector): (r: Selector)
    ensures r.done && r.regs == s.regs
    ensures s.done ==> r == s
    ensures !s.done ==> r.cancels == [] && r.ports == {}
    ensures !s.done ==> |r.trace| == |s.trace| + |s.cancels| && r.trace[..|s.trace|] == s.trace
    ensures !s.done ==> forall i :: 0 <= i < |s.cancels| ==> r.trace[|s.trace| + i] == Cancelled(s.cancels[i])
    ensures SettleCount(r.trace) == SettleCount(s.trace)
  {
    if s.done then s
    else
      SettleCountAppend(s.trace, CancelEffects(s.cancels));
      Selector(true, [], {}, s.regs, s.trace + CancelEffects(s.cancels))
  }

  /** `cleanup` as the source writes it, with `forEach` as a loop. */
  method RunCleanup(s: Selector) returns (r: Selector)
    ensures r == Cleanup(s)
  {
    if s.done {
      return s;
    }
    var trace := s.trace;
    var i := 0;
    while i < |s.cancels|
      invariant 0 <= i <= |s.cancels|
      invariant |trace| == |s.trace| + i
      invariant trace[..|s.trace|] == s.trace
      invariant forall j :: 0 <= j < i ==> trace[|s.trace| + j] == Cancelled(s.cancels[j])
    {
      trace := trace + [Cancelled(s.cancels[i])];
      i := i + 1;
    }
    assert trace == s.trace + CancelEffects(s.cancels);
    r := Selector(true, [], {}, s.regs, trace);
  }

  /** Records that the external wait of a new registration was started. */
  function Begin(s: Selector, reg: Registration): (r: Selector)
    ensures r.regs == s.regs + [reg] && r.trace == s.trace + [Begun(|s.regs|)]
    ensures r.done == s.done && r.cancels == s.cancels && r.ports == s.ports
  {
    s.(regs := s.regs + [reg], trace := s.trace + [Begun(|s.regs|)])
  }

  /** Appends the effects of a dispatch. */
  function Emit(s: Selector, e: seq<Effect>): (r: Selector)
    ensures r.trace == s.trace + e
    ensures SettleCount(r.trace) == SettleCount(s.trace) + SettleCount(e)
    ensures r.done == s.done && r.cancels == s.cancels && r.ports == s.ports && r.regs == s.regs
  {
    SettleCountAppend(s.trace, e);
    s.(trace := s.trace + e)
  }

  /** The callback `take`, `put` and `once` install: `cleanup(self);
      execute(self, fn, data)`. It does not test `_done`, so a firing after
      settlement dispatches once more. */
  function OnData(s: Selector, k: nat, data: Val, beh: Behaviour): (r: Selector)
    requires k < |s.regs| && (HoldsPort(s.regs[k]) || s.regs[k].OnceReg?)
    ensures r.done && r.regs == s.regs
    ensures !s.done ==> r.cancels == [] && r.ports == {}
    ensures r.trace == (if s.done then s.trace else s.trace + CancelEffects(s.cancels))
      + Execute(s.regs[k].handler, data, beh)
    ensures SettleCount(r.trace) == SettleCount(s.trace) + 1
  {
    Emit(Cleanup(s), Execute(s.regs[k].handler, data, beh))
  }

  /** The callback `thunk` passes to the task: `cleanup(self)` and then the
      dispatch of `OnThunkDone`. It does not test `_done` either. */
  function OnThunk(s: Selector, k: nat, err: Val, data: Val, beh: Behaviour): (r: Selector)
    requires k < |s.regs| && s.regs[k].ThunkReg?
    ensures r.done && r.regs == s.regs
    ensures !s.done ==> r.cancels == [] && r.ports == {}
    ensures r.trace == (if s.done then s.trace else s.trace + CancelEffects(s.cancels))
      + OnThunkDone(s.regs[k].handler, err, data, beh)
    ensures SettleCount(r.trace) == SettleCount(s.trace) + 1
  {
    Emit(Cleanup(s), OnThunkDone(s.regs[k].handler, err, data, beh))
  }

  /** The two callbacks `await` attaches with `promise.then`: each ignores a
      firing once the selector is done. */
  function OnSettled(s: Selector, k: nat, ok: bool, v: Val, beh: Behaviour): (r: Selector)
    requires k < |s.regs| && s.regs[k].AwaitReg?
    ensures s.done ==> r == s
    ensures !s.done ==> r.done && SettleCount(r.trace) == SettleCount(s.trace) + 1
    ensures !s.done ==> r.cancels == [] && r.ports == {}
    ensures !s.done && ok ==> r.trace == s.trace + CancelEffects(s.cancels) + OnFulfilled(s.regs[k].onValue, v, beh)
    ensures !s.done && !ok ==> r.trace == s.trace + CancelEffects(s.cancels) + OnRejected(s.regs[k].onError, v, beh)
    ensures r.regs == s.regs
  {
    if s.done then s
    else if ok then Emit(Cleanup(s), OnFulfilled(s.regs[k].onValue, v, beh))
    else Emit(Cleanup(s), OnRejected(s.regs[k].onError, v, beh))
  }

  /** The timer callback of `timeout`: ignored once the selector is done,
      otherwise `execute(self, fn)` with no payload. */
  function OnElapsed(s: Selector, k: nat, beh: Behaviour): (r: Selector)
    requires k < |s.regs| && s.regs[k].TimeoutReg?
    ensures s.done ==> r == s
    ensures !s.done ==> r.done && SettleCount(r.trace) == SettleCount(s.trace) + 1
    ensures !s.done ==> r.cancels == [] && r.ports == {}
    ensures !s.done ==> r.trace == s.trace + CancelEffects(s.cancels) + Execute(s.regs[k].handler, Undefined, beh)
    ensures r.regs == s.regs
  {
    if s.done then s
    else Emit(Cleanup(s), Execute(s.regs[k].handler, Undefined, beh))
  }

  /** An external source completing: registration `reg` is called back. */
  datatype Signal =
    | Data(reg: nat, value: Val)                 // a port or an event listener delivers
    | Fulfilled(reg: nat, value: Val)            // a promise resolves
    | Broken(reg: nat, error: Val)               // a promise rejects
    | Callback(reg: nat, err: Val, data: Val)    // a callback-style task calls back
    | Elapsed(reg: nat)                          // a timer fires

  /** Whether a registration installed the callback a signal calls. */
  predicate Answers(r: Registration, sig: Signal) {
    match sig
    case Data(_, _) => HoldsPort(r) || r.OnceReg?
    case Fulfilled(_, _) => r.AwaitReg?
    case Broken(_, _) => r.AwaitReg?
    case Callback(_, _, _) => r.ThunkReg?
    case Elapsed(_) => r.TimeoutReg?
  }

  /** What the handlers of registration `reg` make of the payload `sig`
      carries, by the kind of source: a port, an event or a timer goes
      through `execute` (a timer with no payload), a promise through the
      handler for its outcome, a task through the `thunk` callback. */
  function Reaction(reg: Registration, sig: Signal, beh: Behaviour): (e: seq<Effect>)
    requires Answers(reg, sig)
    ensures SettleCount(e) == 1
  {
    match sig
    case Data(_, v) => Execute(reg.handler, v, beh)
    case Fulfilled(_, v) => OnFulfilled(reg.onValue, v, beh)
    case Broken(_, err) => OnRejected(reg.onError, err, beh)
    case Callback(_, err, data) => OnThunkDone(reg.handler, err, data, beh)
    case Elapsed(_) => Execute(reg.handler, Undefined, beh)
  }

  /** Runs the callback a signal calls. The first firing settles the
      selector with exactly one settling effect. A later firing changes
      nothing for `await` and `timeout`, and settles once more for the other
      kinds, whose callbacks rely on their wait having been cancelled. */
  function Fire(s: Selector, sig: Signal, beh: Behaviour): (r: Selector)
    requires sig.reg < |s.regs| && Answers(s.regs[sig.reg], sig)
    ensures r.done && r.regs == s.regs
    ensures !s.done ==> SettleCount(r.trace) == SettleCount(s.trace) + 1
    ensures s.done && !Unguarded(s.regs[sig.reg]) ==> r == s
    ensures s.done && Unguarded(s.regs[sig.reg]) ==> SettleCount(r.trace) == SettleCount(s.trace) + 1
    ensures !s.done ==> r.cancels == [] && r.ports == {}
    ensures !s.done ==> r.trace == s.trace + CancelEffects(s.cancels) + Reaction(s.regs[sig.reg], sig, beh)
    ensures s.done && Unguarded(s.regs[sig.reg]) ==> r.trace == s.trace + Reaction(s.regs[sig.reg], sig, beh)
  {
    match sig
    case Data(k, v) => OnData(s, k, v, beh)
    case Fulfilled(k, v) => OnSettled(s, k, true, v, beh)
    case Broken(k, e) => OnSettled(s, k, false, e, beh)
    case Callback(k, err, data) => OnThunk(s, k, err, data, beh)
    case Elapsed(k) => OnElapsed(s, k, beh)
  }

  /** A call of one registration method. `syncData` / `syncCallback` say
      whether the port or the task calls back synchronously, inside
      `port.take` / `port.put` / `thunk(...)`, and with what. */
  datatype Call =
    | Take(chan: Chan, handler: Handler, syncData: Option<Val>)
    | Put(chan: Chan, value: Val, handler: Handler, syncData: Option<Val>)
    | Await(promise: nat, onValue: Handler, onError: Handler)
    | Task(task: nat, onValue: Handler, onError: Handler)
    | Thunk(thunk: nat, handler: Handler, syncCallback: Option<(Val, Val)>)
    | Once(emitter: nat, kind: string, handler: Handler)
    | Timeout(ms: int, handler: Handler)

  /** The port a `take` or `put` call resolves to. */
  function PortOfCall(call: Call): (p: PortId)
    requires call.Take? || call.Put?
  {
    if call.Take? then ReceiveEnd(call.chan) else SendEnd(call.chan)
  }

  /** What a registration method returns: `this`, or `undefined` once done. */
  datatype Ret = This | Undef

  /** A registration method either returns or throws synchronously. */
  datatype Reply = Returned(sel: Selector, value: Ret) | Thrown(sel: Selector, error: Val)

  /** The shared body of `take` and `put` after the `_done` test. */
  function AttachPort(s: Selector, reg: Registration, syncData: Option<Val>, beh: Behaviour): (r: Reply)
    requires !s.done && HoldsPort(reg)
    ensures reg.port in s.ports ==> r == Thrown(s, DuplicatePort)
    ensures reg.port !in s.ports ==> r.Returned? && r.value == This && r.sel.regs == s.regs + [reg]
    ensures reg.port !in s.ports && syncData.None? ==>
      r.sel == Begin(s.(ports := s.ports + {reg.port}, cancels := s.cancels + [Unlink(|s.regs|)]), reg)
    ensures reg.port !in s.ports && syncData.Some? ==> r.sel.done && r.sel.cancels == []
    ensures reg.port !in s.ports && syncData.Some? ==>
      r == Returned(OnData(Begin(s.(ports := s.ports + {reg.port}), reg), |s.regs|, syncData.value, beh), This)
  {
    if reg.port in s.ports then Thrown(s, DuplicatePort)
    else
      var k := |s.regs|;
      var started := Begin(s.(ports := s.ports + {reg.port}), reg);
      var after := if syncData.Some? then OnData(started, k, syncData.value, beh) else started;
      if after.done then Returned(after, This)
      else Returned(after.(cancels := after.cancels + [Unlink(k)]), This)
  }

  /** The registration a call records: the port it resolves to, the value
      it offers and the handlers it was given, in the roles the source gives
      them. */
  function RegOf(call: Call): (reg: Registration)
    ensures HoldsPort(reg) <==> call.Take? || call.Put?
    ensures (call.Take? || call.Put?) ==> reg.port == PortOfCall(call)
  {
    match call
    case Take(c, h, _) => TakeReg(ReceiveEnd(c), h)
    case Put(c, v, h, _) => PutReg(SendEnd(c), v, h)
    case Await(p, res, rej) => AwaitReg(Promise(p), res, rej)
    case Task(t, res, rej) => AwaitReg(FromTask(t), res, rej)
    case Thunk(t, h, _) => ThunkReg(t, h)
    case Once(e, kind, h) => OnceReg(e, kind, h)
    case Timeout(ms, h) => TimeoutReg(ms, h)
  }

  /** `Selector.prototype.take`, `put`, `await`, `task`, `thunk`, `once` and
      `timeout`. Each is a no-op returning `undefined` on a done selector;
      `take` and `put` throw on a port already registered. */
  function Register(s: Selector, call: Call, beh: Behaviour): (r: Reply)
    ensures s.done ==> r == Returned(s, Undef)
    ensures r.Thrown? <==> !s.done && (call.Take? || call.Put?) && PortOfCall(call) in s.ports
    ensures r.Thrown? ==> r.sel == s && r.error == DuplicatePort
    ensures r.Returned? && !s.done ==> r.value == This
    ensures r.Returned? && !s.done ==> |r.sel.regs| == |s.regs| + 1 && r.sel.regs[..|s.regs|] == s.regs
    ensures r.Returned? && !s.done ==>
      (|r.sel.trace| > |s.trace| && r.sel.trace[..|s.trace| + 1] == s.trace + [Begun(|s.regs|)])
    ensures r.Returned? && !s.done ==> r.sel.regs[|s.regs|] == RegOf(call)
    ensures !s.done && (call.Take? || call.Put?) ==> r == AttachPort(s, RegOf(call), call.syncData, beh)
    ensures !s.done && (call.Await? || call.Task? || call.Timeout? || (call.Thunk? && call.syncCallback.None?)) ==>
      r == Returned(Begin(s, RegOf(call)), This)
    ensures !s.done && call.Thunk? && call.syncCallback.Some? ==>
      r == Returned(OnThunk(Begin(s, RegOf(call)), |s.regs|, call.syncCallback.value.0, call.syncCallback.value.1, beh), This)
    ensures !s.done && call.Once? ==>
      r == Returned(Begin(s.(cancels := s.cancels + [Unlisten(|s.regs|)]), RegOf(call)), This)
  {
    if s.done then Returned(s, Undef)
    else match call
      case Take(c, h, sync) => AttachPort(s, TakeReg(ReceiveEnd(c), h), sync, beh)
      case Put(c, v, h, sync) => AttachPort(s, PutReg(SendEnd(c), v, h), sync, beh)
      case Await(p, res, rej) => Returned(Begin(s, AwaitReg(Promise(p), res, rej)), This)
      case Task(t, res, rej) => Returned(Begin(s, AwaitReg(FromTask(t), res, rej)), This)
      case Thunk(t, h, sync) =>
        var started := Begin(s, ThunkReg(t, h));
        if sync.None? then Returned(started, This)
        else Returned(OnThunk(started, |s.regs|, sync.value.0, sync.value.1, beh), This)
      case Once(e, kind, h) =>
        Returned(Begin(s.(cancels := s.cancels + [Unlisten(|s.regs|)]), OnceReg(e, kind, h)), This)
      case Timeout(ms, h) => Returned(Begin(s, TimeoutReg(ms, h)), This)
  }
}

=== FILE: selector_props.dfy ===
/** Properties of a single selector: the shape its state keeps across every
    registration and callback, the guards of the registration methods, and
    what `cleanup` does with the cancel thunks. */
module SelectorProperties {
  import opened Values
  import opened Dispatch
  import opened Selectors

  /** The ports of the `take` and `put` registrations made so far. */
  function PortsOf(regs: seq<Registration>): (ps: set<PortId>) {
    set i | 0 <= i < |regs| && HoldsPort(regs[i]) :: regs[i].port
  }

  /** A cancel thunk undoes a registration of the matching kind. */
  predicate CancelFits(regs: seq<Registration>, c: Cancel) {
    && c.reg < |regs|
    && (c.Unlink? ==> HoldsPort(regs[c.reg]))
    && (c.Unlisten? ==> regs[c.reg].OnceReg?)
  }

  /** The shape every reachable selector has: once done it holds no cancel
      thunks and no ports; the cancel thunks undo earlier registrations, one
      each, in registration order; while running, the port set is exactly
      the ports registered; and no port is registered twice. */
  predicate WellFormed(s: Selector) {
    && (s.done ==> s.cancels == [] && s.ports == {})
    && (forall i :: 0 <= i < |s.cancels| ==> CancelFits(s.regs, s.cancels[i]))
    && (forall i, j :: 0 <= i < j < |s.cancels| ==> s.cancels[i].reg < s.cancels[j].reg)
    && (!s.done ==> s.ports == PortsOf(s.regs))
    && (forall i, j :: 0 <= i < j < |s.regs| && HoldsPort(s.regs[i]) && HoldsPort(s.regs[j]) ==>
          s.regs[i].port != s.regs[j].port)
  }

  lemma FreshIsWellFormed()
    ensures WellFormed(Fresh) && !Fresh.done && Fresh.trace == []
  {
  }

  lemma PortsOfAppend(regs: seq<Registration>, reg: Registration)
    ensures HoldsPort(reg) ==> PortsOf(regs + [reg]) == PortsOf(regs) + {reg.port}
    ensures !HoldsPort(reg) ==> PortsOf(regs + [reg]) == PortsOf(regs)
  {
    var all := regs + [reg];
    forall p | p in PortsOf(all)
      ensures p in PortsOf(regs) || (HoldsPort(reg) && p == reg.port)
    {
      var i :| 0 <= i < |all| && HoldsPort(all[i]) && all[i].port == p;
      if i < |regs| {
        assert regs[i] == all[i];
      }
    }
    forall p | p in PortsOf(regs)
      ensures p in PortsOf(all)
    {
      var i :| 0 <= i < |regs| && HoldsPort(regs[i]) && regs[i].port == p;
      assert all[i] == regs[i];
    }
    if HoldsPort(reg) {
      assert all[|regs|] == reg;
    }
  }

  /** Appending a registration whose cancel thunk (if any) comes after every
      pending one keeps the shape. */
  lemma BeginKeepsWellFormed(s: Selector, reg: Registration)
    requires WellFormed(s) && !s.done
    requires HoldsPort(reg) ==> reg.port !in s.ports
    ensures WellFormed(Begin(s.(ports := if HoldsPort(reg) then s.ports + {reg.port} else s.ports), reg))
  {
    var t := Begin(s.(ports := if HoldsPort(reg) then s.ports + {reg.port} else s.ports), reg);
    PortsOfAppend(s.regs, reg);
    forall i | 0 <= i < |t.cancels|
      ensures CancelFits(t.regs, t.cancels[i])
    {
      assert CancelFits(s.regs, s.cancels[i]);
      assert t.regs[t.cancels[i].reg] == s.regs[t.cancels[i].reg];
    }
    forall i, j | 0 <= i < j < |t.regs| && HoldsPort(t.regs[i]) && HoldsPort(t.regs[j])
      ensures t.regs[i].port != t.regs[j].port
    {
      if j == |s.regs| {
        assert t.regs[i] == s.regs[i];
        assert s.regs[i].port in PortsOf(s.regs);
      }
    }
  }

  /** Pushing the cancel thunk of the newest registration keeps the shape. */
  lemma PushCancelKeepsWellFormed(s: Selector, c: Cancel)
    requires WellFormed(s) && !s.done
    requires |s.regs| > 0 && c.reg == |s.regs| - 1 && CancelFits(s.regs, c)
    requires forall i :: 0 <= i < |s.cancels| ==> s.cancels[i].reg < c.reg
    ensures WellFormed(s.(cancels := s.cancels + [c]))
  {
  }

  lemma CleanupKeepsWellFormed(s: Selector)
    requires WellFormed(s)
    ensures WellFormed(Cleanup(s))
  {
  }

  lemma EmitKeepsWellFormed(s: Selector, e: seq<Effect>)
    requires WellFormed(s)
    ensures WellFormed(Emit(s, e))
  {
  }

  /** Every callback keeps the shape. */
  lemma FireKeepsWellFormed(s: Selector, sig: Signal, beh: Behaviour)
    requires WellFormed(s)
    requires sig.reg < |s.regs| && Answers(s.regs[sig.reg], sig)
    ensures WellFormed(Fire(s, sig, beh))
  {
  }

  /** Every registration method keeps the shape, whether it registers,
      throws, settles synchronously or does nothing. */
  lemma {:induction false} RegisterKeepsWellFormed(s: Selector, call: Call, beh: Behaviour)
    requires WellFormed(s)
    ensures WellFormed(Register(s, call, beh).sel)
  {
    if s.done {
      return;
    }
    var k := |s.regs|;
    match call {
      case Take(c, h, sync) =>
        AttachKeepsWellFormed(s, TakeReg(ReceiveEnd(c), h), sync, beh);
      case Put(c, v, h, sync) =>
        AttachKeepsWellFormed(s, PutReg(SendEnd(c), v, h), sync, beh);
      case Await(p, res, rej) =>
        BeginKeepsWellFormed(s, AwaitReg(Promise(p), res, rej));
      case Task(t, res, rej) =>
        BeginKeepsWellFormed(s, AwaitReg(FromTask(t), res, rej));
      case Thunk(t, h, sync) =>
        BeginKeepsWellFormed(s, ThunkReg(t, h));
        var started := Begin(s, ThunkReg(t, h));
        if sync.Some? {
          CleanupKeepsWellFormed(started);
        }
      case Once(e, kind, h) =>
        var pushed := s.(cancels := s.cancels + [Unlisten(k)]);
        BeginKeepsWellFormed(s, OnceReg(e, kind, h));
        var started := Begin(s, OnceReg(e, kind, h));
        assert CancelFits(started.regs, Unlisten(k));
        PushCancelKeepsWellFormed(started, Unlisten(k));
        assert started.(cancels := started.cancels + [Unlisten(k)]) == Begin(pushed, OnceReg(e, kind, h));
      case Timeout(ms, h) =>
        BeginKeepsWellFormed(s, TimeoutReg(ms, h));
    }
  }

  lemma AttachKeepsWellFormed(s: Selector, reg: Registration, sync: Option<Val>, beh: Behaviour)
    requires WellFormed(s) && !s.done && HoldsPort(reg)
    ensures WellFormed(AttachPort(s, reg, sync, beh).sel)
  {
    if reg.port in s.ports {
      return;
    }
    var k := |s.regs|;
    var started := Begin(s.(ports := s.ports + {reg.port}), reg);
    BeginKeepsWellFormed(s, reg);
    if sync.Some? {
      CleanupKeepsWellFormed(started);
    } else {
      assert CancelFits(started.regs, Unlink(k));
      PushCancelKeepsWellFormed(started, Unlink(k));
    }
  }

  /** `cleanup` is idempotent. */
  lemma CleanupIdempotent(s: Selector)
    ensures Cleanup(Cleanup(s)) == Cleanup(s)
  {
  }

  /** The first `cleanup` of a well-formed selector cancels every pending
      registration exactly once, in registration order, and appends nothing
      else. */
  lemma CleanupCancelsInRegistrationOrder(s: Selector)
    requires WellFormed(s) && !s.done
    ensures Cleanup(s).trace == s.trace + CancelEffects(s.cancels)
    ensures forall i, j :: |s.trace| <= i < j < |Cleanup(s).trace| ==>
      Cleanup(s).trace[i].Cancelled? && Cleanup(s).trace[j].Cancelled? &&
      Cleanup(s).trace[i].cancel.reg < Cleanup(s).trace[j].cancel.reg
  {
  }

  /** `take` or `put` on a port this selector already holds throws the
      duplicate-port error before the port is asked to wait: the state, the
      trace included, is unchanged. */
  lemma DuplicatePortRejected(s: Selector, i: nat, call: Call, beh: Behaviour)
    requires WellFormed(s) && !s.done
    requires i < |s.regs| && HoldsPort(s.regs[i])
    requires (call.Take? || call.Put?) && PortOfCall(call) == s.regs[i].port
    ensures Register(s, call, beh) == Thrown(s, DuplicatePort)
  {
    assert s.regs[i].port in PortsOf(s.regs);
  }

  /** A channel and its own receiving port are the same port for `take`:
      taking from the channel and then from its `output` port throws. */
  lemma ChannelAndItsOutputCollide(s: Selector, c: Chan, h1: Handler, h2: Handler, beh: Behaviour)
    requires !s.done && c.output.Some? && c.output.value !in s.ports
    ensures Register(s, Take(c, h1, None), beh).Returned?
    ensures Register(Register(s, Take(c, h1, None), beh).sel, Take(Chan(c.output.value, None, None), h2, None), beh)
      == Thrown(Register(s, Take(c, h1, None), beh).sel, DuplicatePort)
  {
  }

  /** `take` and `put` share one port set: a raw port taken from cannot
      also be put to in the same selector. */
  lemma TakeThenPutOnOnePortCollide(s: Selector, p: PortId, v: Val, h1: Handler, h2: Handler, beh: Behaviour)
    requires !s.done && p !in s.ports
    ensures Register(s, Take(Chan(p, None, None), h1, None), beh).Returned?
    ensures Register(Register(s, Take(Chan(p, None, None), h1, None), beh).sel, Put(Chan(p, None, None), v, h2, None), beh).Thrown?
  {
  }

  /** A `take` or `put` whose port waits pushes exactly one cancel thunk,
      for itself; one whose port calls back inside `port.take` / `port.put`
      settles the selector, cancels the earlier registrations and pushes
      none. */
  lemma SyncCompletionPushesNoCancel(s: Selector, call: Call, beh: Behaviour)
    requires WellFormed(s) && !s.done
    requires (call.Take? || call.Put?) && PortOfCall(call) !in s.ports
    ensures call.syncData.None? ==> Register(s, call, beh).sel.cancels == s.cancels + [Unlink(|s.regs|)]
    ensures call.syncData.Some? ==> Register(s, call, beh).sel.done && Register(s, call, beh).sel.cancels == []
    ensures call.syncData.Some? ==>
      Register(s, call, beh).sel.trace[..|s.trace| + 1 + |s.cancels|] == s.trace + [Begun(|s.regs|)] + CancelEffects(s.cancels)
    ensures call.syncData.Some? ==> SettleCount(Register(s, call, beh).sel.trace) == SettleCount(s.trace) + 1
  {
    var reg := if call.Take? then TakeReg(ReceiveEnd(call.chan), call.handler)
               else PutReg(SendEnd(call.chan), call.value, call.handler);
    var started := Begin(s.(ports := s.ports + {reg.port}), reg);
    if call.syncData.Some? {
      var c := Cleanup(started);
      assert c.trace == started.trace + CancelEffects(s.cancels);
      SettleCountAppend(s.trace, [Begun(|s.regs|)]);
    }
  }

  /** A registration method settles the selector only when it is running
      and its source calls back synchronously, and then exactly once; it
      never un-settles a selector. */
  lemma {:induction false} RegisterSettlesAtMostOnce(s: Selector, call: Call, beh: Behaviour)
    ensures s.done ==> Register(s, call, beh).sel.done
    ensures SettleCount(Register(s, call, beh).sel.trace)
      == SettleCount(s.trace) + (if !s.done && Register(s, call, beh).sel.done then 1 else 0)
  {
    if s.done {
      return;
    }
    var r := Register(s, call, beh);
    SettleCountAppend(s.trace, [Begun(|s.regs|)]);
    match call {
      case Take(c, h, sync) =>
      case Put(c, v, h, sync) =>
      case Await(p, res, rej) =>
      case Task(t, res, rej) =>
      case Thunk(t, h, sync) =>
      case Once(e, kind, h) =>
        var pushed := s.(cancels := s.cancels + [Unlisten(|s.regs|)]);
        SettleCountAppend(pushed.trace, [Begun(|s.regs|)]);
      case Timeout(ms, h) =>
    }
  }
}

=== FILE: setup.dfy ===
/** `select(fn)`: the operation that, once started, builds a fresh selector,
    lets the caller's setup function register sources on it, and rethrows to
    the starter whatever the setup function throws, after `cleanup`. */
module Setup {
  import opened Values
  import opened Dispatch
  import opened Selectors
  import opened SelectorProperties

  /** One statement of the caller's setup function: a registration method
      called on the selector (`onResult == false`) or on the value the
      previous call returned (`onResult == true`, as in
      `s.take(a).put(b, v)`), or a synchronous `throw`. */
  datatype Stmt = Invoke(onResult: bool, call: Call) | Raise(error: Val)

  /** How the setup function ends: normally, with the value of its last
      call, or by throwing. */
  datatype Completion = Normal(sel: Selector, last: Ret) | Abrupt(sel: Selector, error: Val)

  /** Runs the setup function's statements in order. `recv` is what the
      previous call returned; calling a method on `undefined` throws a
      `TypeError`. An exception stops the setup function. */
  function RunSetup(s: Selector, body: seq<Stmt>, recv: Ret, beh: Behaviour): (r: Completion)
    ensures |r.sel.regs| >= |s.regs| && r.sel.regs[..|s.regs|] == s.regs
    ensures s.done ==> r.sel.done
    decreases |body|
  {
    if body == [] then Normal(s, recv)
    else match body[0]
      case Raise(e) => Abrupt(s, e)
      case Invoke(onResult, call) =>
        if onResult && recv == Undef then Abrupt(s, ChainOnUndefined)
        else match Register(s, call, beh)
          case Thrown(s1, e) => Abrupt(s1, e)
          case Returned(s1, v) =>
            var r := RunSetup(s1, body[1..], v, beh);
            assert r.sel.regs[..|s.regs|] == r.sel.regs[..|s1.regs|][..|s.regs|];
            r
  }

  /** Starting the operation `select(fn)` returns normally, or throws. */
  datatype Start = Running(sel: Selector) | Threw(sel: Selector, error: Val)

  /** `select(fn)(resolve, reject)`: a fresh selector is handed to the setup
      function; if that throws, `cleanup` runs and the same error is thrown
      to the starter instead of being passed to `reject`. */
  function Select(body: seq<Stmt>, beh: Behaviour): (r: Start)
    ensures r.Threw? ==> r.sel.done && r.sel.cancels == [] && r.sel.ports == {}
    ensures r.Running? ==> r.sel == RunSetup(Fresh, body, This, beh).sel
    ensures WellFormed(r.sel) && SettleCount(r.sel.trace) <= 1
    ensures r.Running? ==> SettleCount(r.sel.trace) == (if r.sel.done then 1 else 0)
    ensures r.Threw? <==> RunSetup(Fresh, body, This, beh).Abrupt?
    ensures r.Threw? ==> r.error == RunSetup(Fresh, body, This, beh).error
    ensures r.Threw? ==> r.sel == Cleanup(RunSetup(Fresh, body, This, beh).sel)
    ensures r.Threw? ==> SettleCount(r.sel.trace) == SettleCount(RunSetup(Fresh, body, This, beh).sel.trace)
  {
    FreshIsWellFormed();
    SetupSettlesAtMostOnce(Fresh, body, This, beh);
    CleanupKeepsWellFormed(RunSetup(Fresh, body, This, beh).sel);
    match RunSetup(Fresh, body, This, beh)
    case Normal(s, _) => Running(s)
    case Abrupt(s, e) => Threw(Cleanup(s), e)
  }

  /** Running a setup function in two parts is running it whole. */
  lemma {:induction false} RunSetupAppend(s: Selector, a: seq<Stmt>, b: seq<Stmt>, recv: Ret, beh: Behaviour)
    ensures RunSetup(s, a + b, recv, beh) ==
      match RunSetup(s, a, recv, beh)
      case Normal(s1, v) => RunSetup(s1, b, v, beh)
      case Abrupt(s1, e) => Abrupt(s1, e)
    decreases |a|
  {
    if a == [] {
      assert a + b == b;
    } else {
      assert (a + b)[0] == a[0];
      assert (a + b)[1..] == a[1..] + b;
      match a[0] {
        case Raise(e) =>
        case Invoke(onResult, call) =>
          if !(onResult && recv == Undef) {
            match Register(s, call, beh) {
              case Thrown(s1, e) =>
              case Returned(s1, v) =>
                RunSetupAppend(s1, a[1..], b, v, beh);
            }
          }
      }
    }
  }

  /** The setup function never settles the selector more than once: a
      source calling back synchronously settles it, and every later
      registration is ignored. The shape of the selector is kept. */
  lemma {:induction false} SetupSettlesAtMostOnce(s: Selector, body: seq<Stmt>, recv: Ret, beh: Behaviour)
    requires WellFormed(s) && SettleCount(s.trace) == (if s.done then 1 else 0)
    ensures WellFormed(RunSetup(s, body, recv, beh).sel)
    ensures SettleCount(RunSetup(s, body, recv, beh).sel.trace) == (if RunSetup(s, body, recv, beh).sel.done then 1 else 0)
    decreases |body|
  {
    if body != [] && body[0].Invoke? && !(body[0].onResult && recv == Undef) {
      RegisterKeepsWellFormed(s, body[0].call, beh);
      RegisterSettlesAtMostOnce(s, body[0].call, beh);
      match Register(s, body[0].call, beh) {
        case Thrown(s1, e) =>
        case Returned(s1, v) =>
          SetupSettlesAtMostOnce(s1, body[1..], v, beh);
      }
    }
  }

  /** When the setup function throws after some statements that completed
      normally, the started operation throws that very error, after
      `cleanup` has cancelled the pending registrations; `select` itself
      neither resolves nor rejects. */
  lemma SetupFailureRethrows(pre: seq<Stmt>, e: Val, rest: seq<Stmt>, beh: Behaviour)
    requires RunSetup(Fresh, pre, This, beh).Normal?
    ensures Select(pre + [Raise(e)] + rest, beh) == Threw(Cleanup(RunSetup(Fresh, pre, This, beh).sel), e)
    ensures var before := RunSetup(Fresh, pre, This, beh).sel;
      SettleCount(Select(pre + [Raise(e)] + rest, beh).sel.trace) == SettleCount(before.trace)
  {
    var before := RunSetup(Fresh, pre, This, beh);
    RunSetupAppend(Fresh, pre, [Raise(e)] + rest, This, beh);
    assert pre + [Raise(e)] + rest == pre + ([Raise(e)] + rest);
    assert ([Raise(e)] + rest)[0] == Raise(e);
  }

  /** When a registration call in the setup function throws (a duplicate
      port) after statements that completed normally, the rest of the setup
      function is skipped and the start throws that very error, after
      `cleanup`. */
  lemma CallFailureRethrows(pre: seq<Stmt>, call: Call, rest: seq<Stmt>, beh: Behaviour)
    requires RunSetup(Fresh, pre, This, beh).Normal?
    requires Register(RunSetup(Fresh, pre, This, beh).sel, call, beh).Thrown?
    ensures Select(pre + [Invoke(false, call)] + rest, beh) == Threw(Cleanup(RunSetup(Fresh, pre, This, beh).sel), DuplicatePort)
  {
    RunSetupAppend(Fresh, pre, [Invoke(false, call)] + rest, This, beh);
    assert pre + [Invoke(false, call)] + rest == pre + ([Invoke(false, call)] + rest);
    assert ([Invoke(false, call)] + rest)[0] == Invoke(false, call);
  }

  /** A setup function that throws at once: the start call throws that
      error and nothing is resolved, rejected or cancelled. */
  lemma ImmediateThrowInvokesNoContinuation(e: Val, beh: Behaviour)
    ensures Select([Raise(e)], beh) == Threw(Cleanup(Fresh), e)
    ensures Select([Raise(e)], beh).sel.trace == []
  {
  }

  /** The setup function `s.thunk(t); throw e` registers the task and then
      throws, with the selector still running. */
  lemma ThunkThenThrowSetup(t: nat, e: Val, beh: Behaviour)
    ensures RunSetup(Fresh, [Invoke(false, Thunk(t, NoHandler, None)), Raise(e)], This, beh)
      == Abrupt(Selector(false, [], {}, [ThunkReg(t, NoHandler)], [Begun(0)]), e)
  {
    var body := [Invoke(false, Thunk(t, NoHandler, None)), Raise(e)];
    var s1 := Selector(false, [], {}, [ThunkReg(t, NoHandler)], [Begun(0)]);
    assert Register(Fresh, Thunk(t, NoHandler, None), beh) == Returned(s1, This);
    assert body[1..] == [Raise(e)];
  }

  /** `cleanup` cannot cancel a task: a setup function that registers a
      `thunk` and then throws makes the start throw, settling nothing, yet
      the task calling back afterwards still settles the operation through
      the `(err, data)` mapping. */
  lemma ThrowAfterThunkStillSettles(t: nat, e: Val, err: Val, data: Val, beh: Behaviour)
    ensures var s2 := Selector(true, [], {}, [ThunkReg(t, NoHandler)], [Begun(0)]);
      && Select([Invoke(false, Thunk(t, NoHandler, None)), Raise(e)], beh) == Threw(s2, e)
      && SettleCount(s2.trace) == 0
      && OnThunk(s2, 0, err, data, beh).trace == s2.trace + [Settle(ThunkOutcome(err, data))]
  {
    ThunkThenThrowSetup(t, e, beh);
    var s1 := Selector(false, [], {}, [ThunkReg(t, NoHandler)], [Begun(0)]);
    var s2 := Selector(true, [], {}, [ThunkReg(t, NoHandler)], [Begun(0)]);
    assert Cleanup(s1) == s2 by {
      assert CancelEffects(s1.cancels) == [];
      assert s1.trace + [] == s1.trace;
    }
    assert SettleCount(s2.trace) == 0 by {
      assert s2.trace[1..] == [];
    }
    LateThunkAfterCleanup(t, err, data, beh);
  }

  /** The task's callback on the selector `cleanup` left. */
  lemma LateThunkAfterCleanup(t: nat, err: Val, data: Val, beh: Behaviour)
    ensures var s2 := Selector(true, [], {}, [ThunkReg(t, NoHandler)], [Begun(0)]);
      OnThunk(s2, 0, err, data, beh).trace == s2.trace + [Settle(ThunkOutcome(err, data))]
  {
  }

  /** A chain `s.take(p).timeout(t).once(...)` whose port delivers inside
      `port.take` settles the selector; `timeout` then returns `undefined`,
      and the chained `once` throws a `TypeError` to the starter even though
      the operation has already resolved. */
  lemma ChainAfterSynchronousSettlementThrows(p: PortId, x: Val, ms: int, em: nat, beh: Behaviour)
    ensures var r := Select([Invoke(false, Take(Chan(p, None, None), NoHandler, Some(x))),
                             Invoke(true, Timeout(ms, NoHandler)),
                             Invoke(true, Once(em, "done", NoHandler))], beh);
      r.Threw? && r.error == ChainOnUndefined && r.sel.trace == [Begun(0), Resolved(x)]
  {
    var body := [Invoke(false, Take(Chan(p, None, None), NoHandler, Some(x))),
                 Invoke(true, Timeout(ms, NoHandler)),
                 Invoke(true, Once(em, "done", NoHandler))];
    var s1 := Register(Fresh, Take(Chan(p, None, None), NoHandler, Some(x)), beh).sel;
    assert s1.trace == [Begun(0)] + [Resolved(x)];
    assert s1.done;
    assert Register(s1, Timeout(ms, NoHandler), beh) == Returned(s1, Undef);
    assert body[1..][1..] == [Invoke(true, Once(em, "done", NoHandler))];
    assert RunSetup(s1, body[1..][1..], Undef, beh) == Abrupt(s1, ChainOnUndefined);
    assert RunSetup(s1, body[1..], This, beh) == Abrupt(s1, ChainOnUndefined);
    assert RunSetup(Fresh, body, This, beh) == Abrupt(s1, ChainOnUndefined);
  }
}

=== FILE: values.dfy ===
/** The JavaScript values that flow through a selector: payloads delivered by
    ports, events and promises, the errors passed to failure continuations,
    and the truthiness test the source applies to them. */
module Values {

  /** An optional value: a port or task that calls back synchronously does
      so with `Some` payload. */
  datatype Option<+T> = None | Some(value: T)

  /** Identity of a user-supplied function (a handler, a generator function). */
  type FnId = nat

  /** Identity of a channel endpoint. The source keeps ports in a `WeakSet`,
      so two references denote the same port exactly when their ids agree. */
  type PortId = int

  /** A JavaScript value, coarse enough for every test the selector makes. */
  datatype Val =
    | Undefined
    | Null
    | Bool(b: bool)
    | Num(n: int)
    | Str(s: string)
    | Obj(ref: nat)
    | Exception(name: string, message: string)

  /** JavaScript's ToBoolean, used by `err ? reject(err) : resolve(data)` and
      by the `if (res)` / `if (rej)` tests of `await`. */
  predicate Truthy(v: Val) {
    match v
    case Undefined => false
    case Null => false
    case Bool(b) => b
    case Num(n) => n != 0
    case Str(s) => s != ""
    case Obj(_) => true
    case Exception(_, _) => true
  }

  /** The error `take` and `put` throw for a port already registered. */
  const DuplicatePort: Val := Exception("Error", "Cannot have duplicated port!")

  /** The error a chained call raises when the previous call returned
      `undefined` (its message depends on the JavaScript engine). */
  const ChainOnUndefined: Val := Exception("TypeError", "")
}
